=== FILE: README.md ===
# Fantasy-football draft assistant — a Dafny model of its core

The draft assistant lists NFL players with last season's points and this
season's projection, lets the user search, filter, sort and page through that
list, open a detail view for one player, and draft players onto a team whose
roster panel fills the starting slots greedily. A Python service builds a
cached player list and answers list queries; a React page keeps the draft
state.

This project models the logic of both halves as pure functions over immutable
data:

- `Values`, `Players`: JSON-like scalars (`Null` or a number; JavaScript and
  Python truthiness), statistic records, and the player record after the join.
- `Text`: ASCII lower-casing, substring search, lexicographic order and
  decimal rendering of naturals.
- `Seqs`: order-preserving subsequences and filtering.
- `KeyedSort`: a stable sort by a key that is either a number or a string,
  ascending or descending, and its uniqueness.
- `ClientScoring`, `ServerScoring`: the two fantasy-point selectors.
- `Roster`: the roster panel's greedy slot assignment.
- `PageControls`: the Previous/Next buttons and the page-number loop.
- `Paging`: the page count and page slice, with Python's slicing and ceiling.
- `PlayerService`: the cache join, the rescore, the four filters, the sort and
  the page, composed into one list request.
- `DraftClient`: the page's state record and its handlers as step functions;
  the result of each network request is an input.

## Model

| member | source | states |
|---|---|---|
| Roster.Assign | frontend/src/MyTeam.js:15-26 | no starting group exceeds its capacity (one QB, TE, K, DEF; two RB, WR) and every group keeps draft order as a subsequence of the team |
| Roster.AssignKeepsEveryone | frontend/src/MyTeam.js:15-26 | the seven groups together hold exactly the drafted players, each as often as drafted |
| Roster.SizesAddUp | frontend/src/MyTeam.js:15-26 | the group sizes add up to the team size |
| Roster.AssignMatchesReference | frontend/src/MyTeam.js:16-24 | each starting group is the first min(capacity, count) drafted players of that position, and the bench is exactly the overflow plus every unknown position, in draft order |
| Roster.UnknownPositionIsBenched | frontend/src/MyTeam.js:23-24 | a player whose position is not one of the six starting positions ends up on the bench |
| Roster.DraftingNeverDisplaces | frontend/src/MyTeam.js:18-22 | adding one more drafted player never moves anyone: every old group is a prefix of the new one |
| ClientScoring.FantasyPoints | frontend/src/scoring.js:1-19 | null data scores 0; a zero or missing standard value counts as 0, a zero or missing PPR value falls back to standard; "std" gives standard, "half_ppr" the mean, every other string PPR |
| ClientScoring.StandardOptionScoresAsPpr | frontend/src/scoring.js:9-18 | the string "standard" is scored exactly like "ppr", so it returns the PPR value whenever one is present |
| ClientScoring.HalfPprIsMean | frontend/src/scoring.js:15-17 | half-PPR equals the mean of the standard and the PPR scores, for every input including null |
| ClientScoring.FormatsAgreeWithoutPpr | frontend/src/scoring.js:6-18 | without a usable PPR value every format gives the standard score |
| ServerScoring.FantasyPoints | backend/scoring.py:1-21 | None and the empty dictionary score 0; otherwise the same fallback rules and format table as the browser version |
| ServerScoring.AgreesWithClient | backend/scoring.py:6-21 | the service and the browser compute the same points for every record and every format string |
| PageControls.PageNumbers | frontend/src/Pagination.js:5-8 | the page list is 1, 2, …, totalPages, and empty for a count of zero or less |
| PageControls.Previous | frontend/src/Pagination.js:12 | Previous is disabled exactly on page 1 and otherwise asks for the page before |
| PageControls.Next | frontend/src/Pagination.js:19 | Next is disabled exactly when the current page equals the page count and otherwise asks for the page after |
| PageControls.EnabledButtonsStayInRange | frontend/src/Pagination.js:12-19 | on a page within 1..totalPages, an enabled button only ever requests a page within 1..totalPages |
| PageControls.EmptyListLeavesNextEnabled | frontend/src/Pagination.js:19 | with zero pages, Next on page 1 is enabled and requests page 2, while Previous is disabled |
| PageControls.PastLastPageNextStaysEnabled | frontend/src/Pagination.js:19 | beyond the last page, Next stays enabled and requests a page further out of range |
| Paging.CeilDiv | backend/app.py:94 | the page count is the least integer whose product with the limit is at least the list length (and the mirror bound for a negative limit) |
| Paging.Slice | backend/app.py:97 | Python slicing never yields more elements than the list and agrees with the plain subsequence for in-range bounds |
| Paging.Paginate | backend/app.py:93-97 | the request fails with a division by zero exactly when the limit is 0 |
| Paging.PageIsWindow | backend/app.py:95-97 | for page and limit of at least 1, a page is the list from (page-1)·limit up to page·limit cut at the end, empty past the end, and never longer than the limit |
| Paging.PageIsRun | backend/app.py:95-97 | for every page number, including zero and negative ones, a page is a run of consecutive elements of the list starting at the resolved start index |
| Paging.PageItemsAreListed | backend/app.py:97 | a page only holds elements of the sorted list |
| Paging.TotalPagesIsLeast | backend/app.py:94 | the page count is non-negative, its pages hold the whole list, and one page fewer would not |
| Paging.PagesCoverList | backend/app.py:93-97 | pages 1 through the page count, concatenated, are exactly the sorted list |
| PlayerService.LastWithId | backend/app.py:23-24 | the entry chosen for an id carries that id and no later entry does; none is chosen only when no entry carries it |
| PlayerService.IndexById | backend/app.py:23-24 | the index exists exactly when every entry has a PlayerID; its keys are the ids present and each maps to the last entry with that id |
| PlayerService.Join | backend/app.py:26-33 | the cache exists exactly when every statistics and projection entry has a PlayerID; it keeps every player in feed order with the last matching entry attached, or an empty record when none matches |
| PlayerService.JoinTakesLastDuplicate | backend/app.py:23-30 | when several statistics entries share a player's id, the player gets the last of them |
| PlayerService.Recalculate | backend/app.py:51-63 | every player is kept in order with only the two FantasyPoints fields changed: last season's set to the rescored value times 2.44, the projection to its rescored value |
| PlayerService.ApplyFilters | backend/app.py:66-80 | the filtered list is an order-preserving subsequence of the input |
| PlayerService.FiltersCompose | backend/app.py:66-80 | the four filter stages, with empty parameters skipped, equal one filter by the reference predicate Keeps |
| PlayerService.FilteredAreExactlyKept | backend/app.py:66-80 | a player survives filtering exactly when it satisfies Keeps, as often as it occurred, in input order |
| PlayerService.NoFiltersDropsOnlyExcluded | backend/app.py:79-80 | with no search, position or team parameter, only positions P, G, C and OL are dropped |
| PlayerService.PositionFilterMeaning | backend/app.py:69-75 | FLEX keeps RB, WR and TE; SUPERFLEX adds QB; any other filter value keeps exact position matches |
| PlayerService.SortPlayers | backend/app.py:83-91 | the sorted list is a permutation of the filtered list ordered by the sort key (missing ADP as 999, missing points as 0, text after numbers), reversed for "descending" |
| PlayerService.SortPlayersIsStable | backend/app.py:91 | players with equal sort keys keep their filtered order in both directions |
| KeyedSort.Sort | backend/app.py:91 | the result is a permutation of the input in key order |
| KeyedSort.SortIsStable | backend/app.py:91 | for every key, the elements with that key appear in the same order as in the input |
| KeyedSort.SortIsUnique | backend/app.py:91 | any ordered list that keeps every key group in input order is the sort's result, so the sort is fully determined by ordering and stability |
| PlayerService.ListPlayers | backend/app.py:36-105 | a list request fails exactly when the limit is 0; otherwise the page holds only rescored cache entries that pass the query's filters, in the order of the requested sort key and direction, at most the limit of them for page and limit of at least 1, and the page count is the ceiling of the number of kept players over the limit |
| PlayerService.PagesListEveryKeptPlayer | backend/app.py:91-97 | requesting pages 1 through the reported page count of one query lists every kept, rescored player exactly as often as the cache holds it, and in sort order |
| DraftClient.RequestSort | frontend/src/App.js:63-72 | a new column sorts ascending, a second click descending, a third click resets to ADP ascending |
| DraftClient.ThreeClicksReset | frontend/src/App.js:63-72 | three clicks on a non-ADP column return to the default sort |
| DraftClient.AdpClicksAlternate | frontend/src/App.js:63-72 | clicking ADP while sorting by ADP toggles between ascending and descending |
| DraftClient.SortArrow | frontend/src/App.js:74-80 | the marker is " ▲" exactly for the active ascending column, " ▼" exactly for the active descending column, and empty exactly for other columns |
| DraftClient.ClickedHeaderArrow | frontend/src/App.js:63-80 | clicking a non-ADP header repeatedly shows its arrow up after the first click, down after the second and no arrow after the third |
| DraftClient.BeginListFetch | frontend/src/App.js:28-29 | a list request sets loading and clears the error and touches nothing else |
| DraftClient.FinishListFetch | frontend/src/App.js:40-57 | loading ends; success replaces the pool and page count; a declined body records its message or the fallback text; an HTTP failure records the status text; a thrown error records its message; failures keep the old pool; no other field changes |
| DraftClient.HttpErrorNamesStatus | frontend/src/App.js:42-43 | the HTTP error text ends in the decimal status, which reads back as the status |
| DraftClient.LateListResponseIsApplied | frontend/src/App.js:26-61 | with a first request in flight, a query change and a second request, the first request's success still replaces the pool |
| DraftClient.SelectPlayer | frontend/src/App.js:82-84 | clicking a row selects the player and starts loading, keeping earlier details in place and changing no other field |
| DraftClient.FinishDetailFetch | frontend/src/App.js:85-99 | loading ends; success shows the payload, any failure the empty placeholder; the selection is not consulted and no other field changes |
| DraftClient.CloseModal | frontend/src/App.js:102-105 | closing clears the selection and the details and nothing else |
| DraftClient.LateDetailsAfterClose | frontend/src/App.js:82-105 | details arriving after the view closed are stored although nothing is selected |
| DraftClient.DraftPlayer | frontend/src/App.js:107-111 | drafting appends the player to the team, removes exactly the pool entries with the same id while every other entry keeps its count and order, closes the view and changes nothing else |
| DraftClient.DraftKeepsDisjoint | frontend/src/App.js:107-111 | if no pool entry shares an id with a team member, drafting keeps it so |
| DraftClient.DraftingAbsentPlayerIsAccepted | frontend/src/App.js:107-111 | drafting a player absent from the pool is not refused: the team grows and the pool is unchanged |
| DraftClient.DraftsKeepInvariant | frontend/src/App.js:107-111 | any run of drafts appends the picks in order and keeps pool and team disjoint |
| DraftClient.ListFetchCanBreakDisjoint | frontend/src/App.js:47-49 | a successful list response ignores the team, so a drafted player can reappear in the pool |
| DraftClient.DraftKeepsRosterPlaces | frontend/src/App.js:107-111 | after a draft, each roster group extends the same group before it |
| Text.DecimalStringRoundTrip | frontend/src/App.js:43 | the decimal rendering of a status reads back as the same number |

## Left out

- backend/data_source.py: the HTTP calls to the statistics provider; the raw player, statistics and projection lists are inputs to `PlayerService.Join`.
- The Flask routes, query-string parsing (`int()` of page and limit, and its ValueError), `jsonify`, CORS and server start-up; a request is a `PlayerService.Query` value.
- The module-level cache: `PlayerService.Join` builds the list the first request would store; memoisation across requests is not modelled.
- The player-detail route (backend/app.py:107-125) and frontend/src/PlayerModal.js: they fetch and render data without logic beyond what `DraftClient.FinishDetailFetch` receives.
- React rendering, effects and the interleaving of asynchronous requests: each handler is a step function and each response an input, so any interleaving is a sequence of steps.
- The trivial setters bound to the search box, the three selects and the page buttons (frontend/src/App.js:130-146, 196); each only stores its value.
- Image fallback, `toFixed(2)` display formatting, the team-option list and CSS.
- Floating point: points are exact reals, so 2.44 and halving are exact, and `math.ceil` over a float quotient is modelled as exact integer ceiling.
- The `console.error` calls in the detail-request handler (frontend/src/App.js:91, 95) and the cache-fill `print` (backend/app.py:18): logging only, with no effect on state.
- A `null` news list in the detail payload, which the detail route sends when the news feed returns nothing: `DraftClient.Details` holds a sequence, and the detail view treats null as no news.
- News items in the detail payload are abstracted to strings; the feed's items are objects with an id, title, content and update time, which only the detail view renders.
- Player attributes other than id, name, position, team, ADP, statistics and projections (photo URL and the rest of the feed).
- Statistic fields are numbers or null; string or boolean values in the feed are not modelled.
- PlayerService.NameMatches: lower-cases ASCII letters only, while Python's `str.lower()` also folds other Unicode letters; a `None` name (AttributeError) is not modelled.
- PlayerService.SortPlayers: sorting by a key other than adp, stats, projections, Name, Position and Team reads the value as '' for every player; the service would read that attribute, and a mix of numbers and strings raises TypeError.
- Roster.Assign: every position outside the six starting ones is benched. On the page, a position naming an inherited JavaScript object property whose `length` is below 2 ("constructor", "toString", "valueOf", "hasOwnProperty" and similar) reaches `push` on that property and fails. Properties whose `length` is undefined or at least 2 ("__proto__", "__defineGetter__", "__defineSetter__") bench the player there too, as the model does.

## Behaviour worth knowing

- Changing a filter or the sort does not reset the page to 1. A narrower list can leave the page past the end, and then Next stays enabled (`PageControls.PastLastPageNextStaysEnabled`).
- A list or detail response is applied whenever it arrives, even when a newer request has been made or the detail view has been closed since (`DraftClient.LateListResponseIsApplied`, `DraftClient.LateDetailsAfterClose`).
- Drafting accepts any player, including one that is not in the pool or is already on the team (`DraftClient.DraftingAbsentPlayerIsAccepted`). A later list response can put a drafted player back in the pool (`DraftClient.ListFetchCanBreakDisjoint`).
- A failed list request keeps the previous pool in state. The table is hidden only behind a non-empty error message (a thrown error with an empty message leaves the old table on screen), and the team filter options are still built from the old pool.
- The format selector sends "standard", but both scorers only recognise "std", so "standard" scores as PPR (`ClientScoring.StandardOptionScoresAsPpr`).

=== FILE: client_scoring.dfy ===
/** The browser's fantasy-point calculation (`calculate_fantasy_points` in
    frontend/src/scoring.js). */
module ClientScoring {
  import opened Values

  /** `player_data.FantasyPoints || 0`. */
  function Standard(d: Record): real {
    FieldOr(d, PointsField, 0.0)
  }

  /** `player_data.FantasyPointsPPR || standard_points`: a zero or null PPR
      value counts as missing. */
  function Ppr(d: Record): real {
    FieldOr(d, PprField, Standard(d))
  }

  /** Points for one statistics object under a scoring-format string; `None`
      stands for JavaScript `null` or `undefined`. Only the exact strings
      "std", "ppr" and "half_ppr" are recognised; anything else scores as PPR. */
  function FantasyPoints(data: Option<Record>, format: string): (r: real)
    ensures data.None? ==> r == 0.0
    ensures data.Some? ==>
      var d := data.value;
      var standard := if PointsField in d && Truthy(d[PointsField]) then d[PointsField].n else 0.0;
      var ppr := if PprField in d && Truthy(d[PprField]) then d[PprField].n else standard;
      && (format == "std" ==> r == standard)
      && (format == "half_ppr" ==> r == (standard + ppr) / 2.0)
      && (format != "std" && format != "half_ppr" ==> r == ppr)
  {
    match data
    case None => 0.0
    case Some(d) =>
      var standardPoints := Standard(d);
      var pprPoints := Ppr(d);
      if format == "std" then standardPoints
      else if format == "ppr" then pprPoints
      else if format == "half_ppr" then (standardPoints + pprPoints) / 2.0
      else pprPoints
  }

  /** The selector offers "standard", which is not one of the recognised
      strings, so it yields the PPR value. */
  lemma StandardOptionScoresAsPpr(d: Record)
    ensures FantasyPoints(Some(d), "standard") == FantasyPoints(Some(d), "ppr")
    ensures PprField in d && Truthy(d[PprField]) ==>
      FantasyPoints(Some(d), "standard") == d[PprField].n
  {
  }

  /** Half-PPR is exactly the mean of the standard and the PPR values. */
  lemma HalfPprIsMean(data: Option<Record>)
    ensures FantasyPoints(data, "half_ppr") == (FantasyPoints(data, "std") + FantasyPoints(data, "ppr")) / 2.0
  {
  }

  /** Without a usable PPR value every format gives the standard value. */
  lemma FormatsAgreeWithoutPpr(d: Record, format: string)
    requires PprField !in d || !Truthy(d[PprField])
    ensures FantasyPoints(Some(d), format) == FantasyPoints(Some(d), "std")
  {
  }
}

=== FILE: draft_client.dfy ===
/** The browser's draft state (frontend/src/App.js): the sort-header cycle and
    its arrow, the outcomes of the list and detail fetches, and drafting. Each
    handler is a step function on one state record; a fetch's result is passed
    in, since the network is outside the model. */
module DraftClient {
  import opened Values
  import opened Players
  import Seqs
  import Text
  import Roster

  datatype Direction = Ascending | Descending

  datatype SortConfig = SortConfig(key: string, direction: Direction)

  /** The sort the page starts with, and the one a third click returns to. */
  const DefaultSort := SortConfig("adp", Ascending)

  /** The detail view's payload: news items, statistics and projections (each
      of the last two may be JSON null). */
  datatype Details = Details(news: seq<string>, stats: Option<Record>, projections: Option<Record>)

  /** What the detail view shows when the detail request fails. */
  const EmptyDetails := Details([], Some(map[]), Some(map[]))

  datatype ClientState = ClientState(
    players: seq<Player>,
    team: seq<Player>,
    error: Option<string>,
    searchTerm: string,
    positionFilter: string,
    teamFilter: string,
    sortConfig: SortConfig,
    scoringFormat: string,
    currentPage: int,
    totalPages: int,
    isLoading: bool,
    selected: Option<Player>,
    details: Option<Details>,
    isLoadingDetails: bool)

  /** The state of a freshly mounted page. */
  const Initial := ClientState([], [], None, "", "", "", DefaultSort, "ppr", 1, 0, true, None, None, false)

  // ---------------------------------------------------------------------------
  // Column sorting

  /** `requestSort`: a new column sorts ascending, a second click descending,
      and a third click on a descending column resets to ADP ascending. */
  function RequestSort(c: SortConfig, key: string): (r: SortConfig)
    ensures c.key != key ==> r == SortConfig(key, Ascending)
    ensures c.key == key && c.direction == Ascending ==> r == SortConfig(key, Descending)
    ensures c.key == key && c.direction == Descending ==> r == DefaultSort
  {
    if c.key == key && c.direction == Ascending then SortConfig(key, Descending)
    else if c.key == key && c.direction == Descending then DefaultSort
    else SortConfig(key, Ascending)
  }

  /** Three clicks on a column other than ADP, starting from another column,
      come back to the default sort. */
  lemma ThreeClicksReset(c: SortConfig, key: string)
    requires key != "adp" && c.key != key
    ensures RequestSort(c, key) == SortConfig(key, Ascending)
    ensures RequestSort(RequestSort(c, key), key) == SortConfig(key, Descending)
    ensures RequestSort(RequestSort(RequestSort(c, key), key), key) == DefaultSort
  {
  }

  /** Clicking ADP while sorting by ADP alternates between two states. */
  lemma AdpClicksAlternate(c: SortConfig)
    requires c.key == "adp"
    ensures RequestSort(c, "adp") != c
    ensures RequestSort(RequestSort(c, "adp"), "adp") == c
  {
  }

  const UpArrow := " ▲"
  const DownArrow := " ▼"

  /** `getSortArrow`: the header marker for one column. */
  function SortArrow(c: SortConfig, column: string): (r: string)
    ensures r == UpArrow <==> c.key == column && c.direction == Ascending
    ensures r == DownArrow <==> c.key == column && c.direction == Descending
    ensures r == "" <==> c.key != column
  {
    assert UpArrow[1] != DownArrow[1];
    if c.key == column then
      match c.direction
      case Ascending => UpArrow
      case Descending => DownArrow
    else ""
  }

  /** Clicking one header repeatedly shows its arrow up, then down, then none,
      as the sort returns to ADP. */
  lemma ClickedHeaderArrow(c: SortConfig, key: string)
    requires key != "adp" && c.key != key
    ensures SortArrow(RequestSort(c, key), key) == UpArrow
    ensures SortArrow(RequestSort(RequestSort(c, key), key), key) == DownArrow
    ensures SortArrow(RequestSort(RequestSort(RequestSort(c, key), key), key), key) == ""
  {
  }

  // ---------------------------------------------------------------------------
  // The list fetch

  /** How a list request ended. */
  datatype ListResponse =
    | Listed(page: seq<Player>, pageCount: int)   // body with status 'success'
    | Declined(message: Option<string>)           // any other body
    | HttpError(status: nat)                       // a response that is not ok
    | Rejected(reason: string)                     // fetch or JSON parsing threw

  const FetchFailedMessage := "Failed to fetch players."

  /** The error text for a failed list request. */
  function ListErrorText(resp: ListResponse): string
    requires !resp.Listed?
  {
    match resp
    case Declined(m) => if m.Some? && m.value != "" then m.value else FetchFailedMessage
    case HttpError(status) => "HTTP error! status: " + Text.DecimalString(status)
    case Rejected(reason) => reason
  }

  /** A list request starts: loading on, error cleared. */
  function BeginListFetch(s: ClientState): (r: ClientState)
    ensures r.isLoading && r.error.None?
    ensures r.(isLoading := s.isLoading, error := s.error) == s
  {
    s.(isLoading := true, error := None)
  }

  /** A list request ends. Success replaces the pool and the page count
      wholesale without looking at the team; failure records a message and
      keeps the old pool. Loading always ends. No check is made that the
      response belongs to the latest request. */
  function FinishListFetch(s: ClientState, resp: ListResponse): (r: ClientState)
    ensures !r.isLoading
    ensures resp.Listed? ==> r.players == resp.page && r.totalPages == resp.pageCount && r.error == s.error
    ensures resp.Declined? ==> r.error == Some(
      if resp.message.Some? && resp.message.value != "" then resp.message.value else "Failed to fetch players.")
    ensures resp.Rejected? ==> r.error == Some(resp.reason)
    ensures resp.HttpError? ==> r.error == Some("HTTP error! status: " + Text.DecimalString(resp.status))
    ensures !resp.Listed? ==> r.players == s.players && r.totalPages == s.totalPages
    ensures r.team == s.team && r.selected == s.selected && r.details == s.details
    ensures r.sortConfig == s.sortConfig && r.currentPage == s.currentPage
    ensures r.(players := s.players, totalPages := s.totalPages, error := s.error, isLoading := s.isLoading) == s
  {
    match resp
    case Listed(page, pageCount) => s.(players := page, totalPages := pageCount, isLoading := false)
    case _ => s.(error := Some(ListErrorText(resp)), isLoading := false)
  }

  /** The status in the HTTP error text reads back as the response status. */
  lemma HttpErrorNamesStatus(s: ClientState, status: nat)
    ensures var e := FinishListFetch(s, HttpError(status)).error.value;
      e == "HTTP error! status: " + Text.DecimalString(status) &&
      Text.DigitsValue(e[20..]) == status
  {
    var e := FinishListFetch(s, HttpError(status)).error.value;
    assert e[20..] == Text.DecimalString(status);
    Text.DecimalStringRoundTrip(status);
  }

  /** A response to a superseded request is applied all the same: with one
      request in flight, the query changes and a second request starts; the
      first request's success still overwrites the pool. */
  lemma LateListResponseIsApplied(s: ClientState, searchTerm: string, page: seq<Player>, count: int)
    ensures FinishListFetch(BeginListFetch(BeginListFetch(s).(searchTerm := searchTerm)), Listed(page, count)).players == page
  {
  }

  // ---------------------------------------------------------------------------
  // The detail view

  /** How a detail request ended. */
  datatype DetailResponse =
    | Detailed(payload: Details)   // body with status 'success'
    | DetailDeclined               // any other body
    | DetailRejected               // fetch or JSON parsing threw

  /** Clicking a row: the player is selected and the detail request starts;
      details from an earlier selection are left in place meanwhile. */
  function SelectPlayer(s: ClientState, p: Player): (r: ClientState)
    ensures r.selected == Some(p) && r.isLoadingDetails
    ensures r.details == s.details && r.players == s.players && r.team == s.team
    ensures r.(selected := s.selected, isLoadingDetails := s.isLoadingDetails) == s
  {
    s.(selected := Some(p), isLoadingDetails := true)
  }

  /** A detail request ends: the payload on success, the empty placeholder
      otherwise; loading always ends. The selection is not consulted. */
  function FinishDetailFetch(s: ClientState, resp: DetailResponse): (r: ClientState)
    ensures !r.isLoadingDetails
    ensures resp.Detailed? ==> r.details == Some(resp.payload)
    ensures !resp.Detailed? ==> r.details == Some(Details([], Some(map[]), Some(map[])))
    ensures r.selected == s.selected && r.players == s.players && r.team == s.team
    ensures r.(details := s.details, isLoadingDetails := s.isLoadingDetails) == s
  {
    var shown := if resp.Detailed? then resp.payload else EmptyDetails;
    s.(details := Some(shown), isLoadingDetails := false)
  }

  /** Closing the detail view clears the selection and the details. */
  function CloseModal(s: ClientState): (r: ClientState)
    ensures r.selected.None? && r.details.None?
    ensures r.(selected := s.selected, details := s.details) == s
  {
    s.(selected := None, details := None)
  }

  /** A detail response that arrives after the view was closed still fills in
      the details, although nothing is selected any more. */
  lemma LateDetailsAfterClose(s: ClientState, p: Player, resp: DetailResponse)
    ensures var r := FinishDetailFetch(CloseModal(SelectPlayer(s, p)), resp);
      r.selected.None? && r.details.Some?
  {
  }

  // ---------------------------------------------------------------------------
  // Drafting

  function OtherId(id: int): Player -> bool {
    (p: Player) => p.id != id
  }

  /** `handleDraftPlayer`: append to the team, drop every pool entry with the
      same id, close the detail view. */
  function DraftPlayer(s: ClientState, p: Player): (r: ClientState)
    ensures r.team == s.team + [p]
    ensures forall q :: q in r.players <==> q in s.players && q.id != p.id
    ensures Seqs.Sub(r.players, s.players)
    ensures forall q :: multiset(r.players)[q] == if q.id != p.id then multiset(s.players)[q] else 0
    ensures r.selected.None? && r.details.None?
    ensures r.(team := s.team, players := s.players, selected := s.selected, details := s.details) == s
  {
    Seqs.FilterMembers(s.players, OtherId(p.id));
    Seqs.FilterCounts(s.players, OtherId(p.id));
    CloseModal(s.(team := s.team + [p], players := Seqs.Filter(s.players, OtherId(p.id))))
  }

  /** No player in the pool shares an id with a drafted player. */
  predicate Disjoint(s: ClientState) {
    forall i, j :: 0 <= i < |s.players| && 0 <= j < |s.team| ==> s.players[i].id != s.team[j].id
  }

  /** Drafting keeps the pool and the team apart. */
  lemma DraftKeepsDisjoint(s: ClientState, p: Player)
    requires Disjoint(s)
    ensures Disjoint(DraftPlayer(s, p))
  {
    var r := DraftPlayer(s, p);
    forall i, j | 0 <= i < |r.players| && 0 <= j < |r.team|
      ensures r.players[i].id != r.team[j].id
    {
      assert r.players[i] in r.players;
      if j < |s.team| {
        var k :| 0 <= k < |s.players| && s.players[k] == r.players[i];
      }
    }
  }

  /** Drafting a player who is not in the pool is not refused: the team grows
      and the pool is unchanged. */
  lemma DraftingAbsentPlayerIsAccepted(s: ClientState, p: Player)
    requires forall i :: 0 <= i < |s.players| ==> s.players[i].id != p.id
    ensures DraftPlayer(s, p).team == s.team + [p]
    ensures DraftPlayer(s, p).players == s.players
  {
    Seqs.FilterKeepsAll(s.players, OtherId(p.id));
  }

  /** A successful list fetch ignores the team, so a drafted player can come
      back into the pool. */
  lemma ListFetchCanBreakDisjoint(p: Player)
    ensures var s := DraftPlayer(Initial, p);
      Disjoint(s) && !Disjoint(FinishListFetch(s, Listed([p], 1)))
  {
    var s := DraftPlayer(Initial, p);
    var r := FinishListFetch(s, Listed([p], 1));
    assert r.players[0].id == r.team[0].id;
  }

  /** Drafting several players, one after another. */
  function DraftAll(s: ClientState, picks: seq<Player>): ClientState
    decreases |picks|
  {
    if |picks| == 0 then s else DraftAll(DraftPlayer(s, picks[0]), picks[1..])
  }

  /** After any run of drafts the team has grown by one per draft, in draft
      order, and the pool and team are still apart. */
  lemma {:induction false} DraftsKeepInvariant(s: ClientState, picks: seq<Player>)
    requires Disjoint(s)
    ensures DraftAll(s, picks).team == s.team + picks
    ensures |DraftAll(s, picks).team| == |s.team| + |picks|
    ensures Disjoint(DraftAll(s, picks))
    decreases |picks|
  {
    if |picks| > 0 {
      var next := DraftPlayer(s, picks[0]);
      assert next.team == s.team + [picks[0]];
      DraftKeepsDisjoint(s, picks[0]);
      DraftsKeepInvariant(next, picks[1..]);
      assert DraftAll(s, picks) == DraftAll(next, picks[1..]);
      assert s.team + [picks[0]] + picks[1..] == s.team + picks;
    }
  }

  /** Drafting never moves an already placed player: each roster group after a
      draft extends the same group before it. */
  lemma DraftKeepsRosterPlaces(s: ClientState, p: Player)
    ensures forall slot :: Roster.Assign(s.team).Bucket(slot) <= Roster.Assign(DraftPlayer(s, p).team).Bucket(slot)
  {
    Roster.DraftingNeverDisplaces(s.team, p);
  }
}

=== FILE: keyed_sort.dfy ===
/** Python's `list.sort(key=..., reverse=...)`: a stable sort by a computed key,
    where `reverse` flips the order of keys but never of equal-key elements. */
module KeyedSort {
  import Text

  /** A sort key: a number or a string. */
  datatype SortKey = NumKey(n: real) | TextKey(t: string)

  /** Python's `<=` on keys of one kind; numbers are placed before strings so
      that the relation is total, although one sort never mixes the two. */
  predicate KeyLe(a: SortKey, b: SortKey) {
    match a
    case NumKey(x) => b.TextKey? || x <= b.n
    case TextKey(x) => b.TextKey? && Text.LexLe(x, b.t)
  }

  /** `a` may come before `b` in the output of a sort in the given direction. */
  predicate InOrder(a: SortKey, b: SortKey, descending: bool) {
    if descending then KeyLe(b, a) else KeyLe(a, b)
  }

  lemma InOrderReflexive(a: SortKey, descending: bool)
    ensures InOrder(a, a, descending)
  {
    if a.TextKey? {
      Text.LexLeReflexive(a.t);
    }
  }

  lemma InOrderTotal(a: SortKey, b: SortKey, descending: bool)
    ensures InOrder(a, b, descending) || InOrder(b, a, descending)
  {
    if a.TextKey? && b.TextKey? {
      Text.LexLeTotal(a.t, b.t);
    }
  }

  lemma InOrderTransitive(a: SortKey, b: SortKey, c: SortKey, descending: bool)
    requires InOrder(a, b, descending) && InOrder(b, c, descending)
    ensures InOrder(a, c, descending)
  {
    if a.TextKey? && b.TextKey? && c.TextKey? {
      if descending {
        Text.LexLeTransitive(c.t, b.t, a.t);
      } else {
        Text.LexLeTransitive(a.t, b.t, c.t);
      }
    }
  }

  lemma InOrderAntisymmetric(a: SortKey, b: SortKey, descending: bool)
    requires InOrder(a, b, descending) && InOrder(b, a, descending)
    ensures a == b
  {
    if a.TextKey? && b.TextKey? {
      Text.LexLeAntisymmetric(a.t, b.t);
    }
  }

  /** Every earlier element may precede every later one. */
  ghost predicate Sorted<T>(s: seq<T>, key: T -> SortKey, descending: bool) {
    forall i, j :: 0 <= i < j < |s| ==> InOrder(key(s[i]), key(s[j]), descending)
  }

  /** The elements of `s` whose key is `k`, in their order in `s`. */
  function WithKey<T>(s: seq<T>, key: T -> SortKey, k: SortKey): seq<T>
    decreases |s|
  {
    if |s| == 0 then []
    else WithKey(s[..|s| - 1], key, k) + (if key(s[|s| - 1]) == k then [s[|s| - 1]] else [])
  }

  lemma WithKeySnoc<T>(s: seq<T>, x: T, key: T -> SortKey, k: SortKey)
    ensures WithKey(s + [x], key, k) == WithKey(s, key, k) + (if key(x) == k then [x] else [])
  {
    assert (s + [x])[..|s|] == s;
  }

  /** Places `x` after every element of `t` that may precede it: the step of a
      stable insertion sort. */
  function Insert<T>(t: seq<T>, x: T, key: T -> SortKey, descending: bool): (r: seq<T>)
    ensures |r| == |t| + 1
    ensures multiset(r) == multiset(t) + multiset{x}
    decreases |t|
  {
    if |t| == 0 || InOrder(key(t[|t| - 1]), key(x), descending) then t + [x]
    else
      assert t == t[..|t| - 1] + [t[|t| - 1]];
      Insert(t[..|t| - 1], x, key, descending) + [t[|t| - 1]]
  }

  lemma {:induction false} InsertKeepsSorted<T>(t: seq<T>, x: T, key: T -> SortKey, descending: bool)
    requires Sorted(t, key, descending)
    ensures Sorted(Insert(t, x, key, descending), key, descending)
    decreases |t|
  {
    var r := Insert(t, x, key, descending);
    if |t| == 0 {
    } else if InOrder(key(t[|t| - 1]), key(x), descending) {
      forall i, j | 0 <= i < j < |r|
        ensures InOrder(key(r[i]), key(r[j]), descending)
      {
        if j == |t| && i < |t| - 1 {
          InOrderTransitive(key(t[i]), key(t[|t| - 1]), key(x), descending);
        }
      }
    } else {
      var init, last := t[..|t| - 1], t[|t| - 1];
      InOrderTotal(key(last), key(x), descending);
      InsertKeepsSorted(init, x, key, descending);
      var r' := Insert(init, x, key, descending);
      assert r == r' + [last];
      forall i | 0 <= i < |r'|
        ensures InOrder(key(r'[i]), key(last), descending)
      {
        assert r'[i] in multiset(r');
        if r'[i] != x {
          assert r'[i] in multiset(init);
          var m :| 0 <= m < |init| && init[m] == r'[i];
        }
      }
    }
  }

  /** Inserting keeps every key's group in order, with `x` at the end of its own. */
  lemma {:induction false} InsertWithKey<T>(t: seq<T>, x: T, key: T -> SortKey, descending: bool, k: SortKey)
    ensures WithKey(Insert(t, x, key, descending), key, k)
         == WithKey(t, key, k) + (if key(x) == k then [x] else [])
    decreases |t|
  {
    if |t| == 0 || InOrder(key(t[|t| - 1]), key(x), descending) {
      WithKeySnoc(t, x, key, k);
    } else {
      var init, last := t[..|t| - 1], t[|t| - 1];
      assert t == init + [last];
      InOrderReflexive(key(x), descending);
      assert key(last) != key(x);
      InsertWithKey(init, x, key, descending, k);
      WithKeySnoc(Insert(init, x, key, descending), last, key, k);
      WithKeySnoc(init, last, key, k);
    }
  }

  /** `s.sort(key=key, reverse=descending)` as a stable insertion sort. */
  function Sort<T>(s: seq<T>, key: T -> SortKey, descending: bool): (r: seq<T>)
    ensures multiset(r) == multiset(s)
    ensures Sorted(r, key, descending)
    decreases |s|
  {
    if |s| == 0 then []
    else
      assert s == s[..|s| - 1] + [s[|s| - 1]];
      var t := Sort(s[..|s| - 1], key, descending);
      InsertKeepsSorted(t, s[|s| - 1], key, descending);
      Insert(t, s[|s| - 1], key, descending)
  }

  /** Stability: elements with equal keys leave the sort in the order they entered it. */
  lemma {:induction false} SortIsStable<T>(s: seq<T>, key: T -> SortKey, descending: bool, k: SortKey)
    ensures WithKey(Sort(s, key, descending), key, k) == WithKey(s, key, k)
    decreases |s|
  {
    if |s| > 0 {
      var init, last := s[..|s| - 1], s[|s| - 1];
      assert s == init + [last];
      SortIsStable(init, key, descending, k);
      InsertWithKey(Sort(init, key, descending), last, key, descending, k);
      WithKeySnoc(init, last, key, k);
    }
  }

  lemma {:induction false} WithKeyMembers<T>(s: seq<T>, key: T -> SortKey, k: SortKey, x: T)
    ensures x in WithKey(s, key, k) <==> x in s && key(x) == k
    decreases |s|
  {
    if |s| > 0 {
      var init := s[..|s| - 1];
      assert s == init + [s[|s| - 1]];
      WithKeyMembers(init, key, k, x);
    }
  }

  /** In a sorted sequence every element may precede the last one. */
  lemma LastIsGreatest<T>(a: seq<T>, key: T -> SortKey, descending: bool, y: T)
    requires Sorted(a, key, descending) && y in a
    ensures InOrder(key(y), key(a[|a| - 1]), descending)
  {
    var i :| 0 <= i < |a| && a[i] == y;
    if i == |a| - 1 {
      InOrderReflexive(key(y), descending);
    }
  }

  /** Agreeing key groups and equal last keys give equal last elements, and
      the groups still agree once the last elements are dropped. */
  lemma DropLastGroups<T>(a: seq<T>, a': seq<T>, x: T, b: seq<T>, b': seq<T>, y: T, key: T -> SortKey)
    requires a == a' + [x] && b == b' + [y] && key(x) == key(y)
    requires forall k :: WithKey(a, key, k) == WithKey(b, key, k)
    ensures x == y
    ensures forall k :: WithKey(a', key, k) == WithKey(b', key, k)
  {
    var kx := key(x);
    WithKeySnoc(a', x, key, kx);
    WithKeySnoc(b', y, key, kx);
    var pa, pb := WithKey(a', key, kx), WithKey(b', key, kx);
    assert WithKey(a, key, kx) == pa + [x] && WithKey(b, key, kx) == pb + [y];
    assert |pa| == |pb|;
    assert (pa + [x])[..|pa|] == pa && (pb + [y])[..|pb|] == pb;
    assert x == y && pa == pb;
    forall k
      ensures WithKey(a', key, k) == WithKey(b', key, k)
    {
      if k != kx {
        WithKeySnoc(a', x, key, k);
        WithKeySnoc(b', y, key, k);
        assert WithKey(a', key, k) == WithKey(a, key, k) == WithKey(b, key, k) == WithKey(b', key, k);
      } else {
        assert WithKey(a', key, k) == pa && WithKey(b', key, k) == pb;
      }
    }
  }

  /** Each last element's key group is shared, so each last element lies in
      the other sequence and neither last key can strictly precede the other. */
  lemma LastKeysAgree<T>(a: seq<T>, b: seq<T>, key: T -> SortKey, descending: bool)
    requires Sorted(a, key, descending) && Sorted(b, key, descending)
    requires |a| > 0 && |b| > 0
    requires forall k :: WithKey(a, key, k) == WithKey(b, key, k)
    ensures key(a[|a| - 1]) == key(b[|b| - 1])
  {
    var x, y := a[|a| - 1], b[|b| - 1];
    WithKeyMembers(b, key, key(y), y);
    WithKeyMembers(a, key, key(y), y);
    LastIsGreatest(a, key, descending, y);
    WithKeyMembers(a, key, key(x), x);
    WithKeyMembers(b, key, key(x), x);
    LastIsGreatest(b, key, descending, x);
    InOrderAntisymmetric(key(x), key(y), descending);
  }

  /** A sequence whose key groups are all empty is empty. */
  lemma NoGroupsNoElements<T>(a: seq<T>, key: T -> SortKey)
    requires forall k :: WithKey(a, key, k) == []
    ensures a == []
  {
    if |a| > 0 {
      WithKeyMembers(a, key, key(a[0]), a[0]);
    }
  }

  /** Two sorted sequences that agree on every key group are equal. */
  lemma {:induction false} SortedGroupsDetermine<T>(a: seq<T>, b: seq<T>, key: T -> SortKey, descending: bool)
    requires Sorted(a, key, descending) && Sorted(b, key, descending)
    requires forall k :: WithKey(a, key, k) == WithKey(b, key, k)
    ensures a == b
    decreases |a| + |b|
  {
    if |a| == 0 {
      NoGroupsNoElements(b, key);
    } else if |b| == 0 {
      NoGroupsNoElements(a, key);
    } else {
      LastKeysAgree(a, b, key, descending);
      var a', b' := a[..|a| - 1], b[..|b| - 1];
      assert a == a' + [a[|a| - 1]] && b == b' + [b[|b| - 1]];
      DropLastGroups(a, a', a[|a| - 1], b, b', b[|b| - 1], key);
      SortedGroupsDetermine(a', b', key, descending);
    }
  }

  /** Any ordering of `s` that is sorted and keeps every key group in input
      order is exactly `Sort(s, ...)`: the sort is pinned down by sortedness
      and stability, as Python's is. */
  lemma SortIsUnique<T>(s: seq<T>, r: seq<T>, key: T -> SortKey, descending: bool)
    requires Sorted(r, key, descending)
    requires forall k :: WithKey(r, key, k) == WithKey(s, key, k)
    ensures r == Sort(s, key, descending)
  {
    forall k
      ensures WithKey(r, key, k) == WithKey(Sort(s, key, descending), key, k)
    {
      SortIsStable(s, key, descending, k);
    }
    SortedGroupsDetermine(r, Sort(s, key, descending), key, descending);
  }
}

=== FILE: page_controls.dfy ===
/** The Previous/Next controls under the player table (frontend/src/Pagination.js). */
module PageControls {

  /** A button: whether it is disabled, and the page its click requests. */
  datatype Button = Button(disabled: bool, requests: int)

  /** The loop that lists page numbers 1 through `totalPages`. */
  method PageNumbers(totalPages: int) returns (pages: seq<int>)
    ensures |pages| == (if totalPages <= 0 then 0 else totalPages)
    ensures forall i :: 0 <= i < |pages| ==> pages[i] == i + 1
  {
    pages := [];
    var i := 1;
    while i <= totalPages
      invariant 1 <= i
      invariant |pages| == i - 1
      invariant i <= (if totalPages >= 1 then totalPages + 1 else 1)
      invariant forall j :: 0 <= j < |pages| ==> pages[j] == j + 1
    {
      pages := pages + [i];
      i := i + 1;
    }
  }

  /** "Previous" is disabled only on page 1 and otherwise requests the page before. */
  function Previous(currentPage: int): (b: Button)
    ensures b.disabled <==> currentPage == 1
    ensures b.requests + 1 == currentPage
  {
    Button(currentPage == 1, currentPage - 1)
  }

  /** "Next" is disabled only when the current page equals the page count,
      and otherwise requests the page after. */
  function Next(currentPage: int, totalPages: int): (b: Button)
    ensures b.disabled <==> currentPage == totalPages
    ensures b.requests == currentPage + 1
  {
    Button(currentPage == totalPages, currentPage + 1)
  }

  /** On a page within range, every enabled button requests a page within range. */
  lemma EnabledButtonsStayInRange(currentPage: int, totalPages: int)
    requires 1 <= currentPage <= totalPages
    ensures !Previous(currentPage).disabled ==> 1 <= Previous(currentPage).requests <= totalPages
    ensures !Next(currentPage, totalPages).disabled ==>
      1 <= Next(currentPage, totalPages).requests <= totalPages
  {
  }

  /** With no pages at all, "Next" stays enabled on page 1 and requests page 2. */
  lemma EmptyListLeavesNextEnabled()
    ensures Next(1, 0) == Button(false, 2)
    ensures Previous(1).disabled
  {
  }

  /** Past the last page (after a new search shrank the list) "Next" is still
      enabled, because only equality with the page count disables it. */
  lemma PastLastPageNextStaysEnabled(currentPage: int, totalPages: int)
    requires currentPage > totalPages
    ensures !Next(currentPage, totalPages).disabled
    ensures Next(currentPage, totalPages).requests > totalPages + 1
  {
  }
}

=== FILE: paging.dfy ===
/** The last stage of the player-list service: the page count and the page
    slice (backend/app.py), with Python's division and slicing rules. */
module Paging {
  import Seqs

  datatype PageResult<T> =
    | Page(items: seq<T>, totalPages: int)
    | DivisionByZero   // `len(...) / limit` with a limit of 0

  /** How Python resolves one bound of `s[i:j]` on a list of length `n`:
      negative bounds count from the end, then the bound is clamped to [0, n]. */
  function ClampIndex(i: int, n: nat): (r: nat)
    ensures r <= n
    ensures 0 <= i <= n ==> r == i
    ensures i > n ==> r == n
    ensures i < 0 ==> r == if i + n < 0 then 0 else i + n
  {
    if i < 0 then (if i + n < 0 then 0 else i + n) else if i > n then n else i
  }

  /** Python's `s[i:j]`. */
  function Slice<T>(s: seq<T>, i: int, j: int): (r: seq<T>)
    ensures |r| <= |s|
    ensures 0 <= i <= j <= |s| ==> r == s[i..j]
  {
    var a, b := ClampIndex(i, |s|), ClampIndex(j, |s|);
    if a < b then s[a..b] else []
  }

  /** `math.ceil(n / d)`: the least integer not below the exact quotient. */
  function CeilDiv(n: nat, d: int): (r: int)
    requires d != 0
    ensures d > 0 ==> (r - 1) * d < n <= r * d
    ensures d < 0 ==> r * d <= n < (r - 1) * d
  {
    if d > 0 then
      var q := (n + d - 1) / d;
      assert q * d <= n + d - 1 < q * d + d;
      q
    else
      var q := n / (-d);
      assert q * (-d) <= n < q * (-d) + (-d);
      -q
  }

  /** One page of the list: the page count, then the slice
      `[(page - 1) * limit : (page - 1) * limit + limit]`. */
  function Paginate<T>(s: seq<T>, page: int, limit: int): (r: PageResult<T>)
    ensures r.DivisionByZero? <==> limit == 0
  {
    if limit == 0 then DivisionByZero
    else
      var start := (page - 1) * limit;
      Page(Slice(s, start, start + limit), CeilDiv(|s|, limit))
  }

  /** A page only ever holds elements of the list it was cut from. */
  lemma PageItemsAreListed<T>(s: seq<T>, page: int, limit: int, x: T)
    requires limit != 0 && x in Paginate(s, page, limit).items
    ensures x in s
  {
    var start := (page - 1) * limit;
    SliceItemsAreListed(s, start, start + limit, x);
  }

  /** Where a page starts in the list once Python has resolved the bound. */
  function PageStart<T>(s: seq<T>, page: int, limit: int): nat {
    ClampIndex((page - 1) * limit, |s|)
  }

  /** Every page, for any page number, is a run of consecutive list elements. */
  lemma PageIsRun<T>(s: seq<T>, page: int, limit: int)
    requires limit != 0
    ensures var a, items := PageStart(s, page, limit), Paginate(s, page, limit).items;
      a + |items| <= |s| && forall i :: 0 <= i < |items| ==> items[i] == s[a + i]
  {
    var start := (page - 1) * limit;
    var a, b := ClampIndex(start, |s|), ClampIndex(start + limit, |s|);
    assert Paginate(s, page, limit).items == Slice(s, start, start + limit);
    assert Slice(s, start, start + limit) == if a < b then s[a..b] else [];
  }

  lemma SliceItemsAreListed<T>(s: seq<T>, i: int, j: int, x: T)
    requires x in Slice(s, i, j)
    ensures x in s
  {
    var a, b := ClampIndex(i, |s|), ClampIndex(j, |s|);
    var k :| 0 <= k < |s[a..b]| && s[a..b][k] == x;
    assert s[a + k] == x;
  }

  lemma MulMono(a: int, b: int, c: int)
    requires a <= b && c >= 0
    ensures a * c <= b * c
  {
  }

  /** For a page and a limit of at least 1, a page holds at most `limit` items
      and is exactly the input from (page - 1) * limit up to page * limit, cut
      at the end of the list. */
  lemma PageIsWindow<T>(s: seq<T>, page: int, limit: int)
    requires page >= 1 && limit >= 1
    ensures Paginate(s, page, limit).Page?
    ensures |Paginate(s, page, limit).items| <= limit
    ensures (page - 1) * limit <= |s| ==>
      Paginate(s, page, limit).items == s[(page - 1) * limit .. Seqs.Min(|s|, page * limit)]
    ensures (page - 1) * limit >= |s| ==> Paginate(s, page, limit).items == []
  {
    MulMono(0, page - 1, limit);
    assert (page - 1) * limit + limit == page * limit;
  }

  lemma PageSizeBound<T>(s: seq<T>, page: int, limit: int)
    ensures page >= 1 && limit >= 1 ==> |Paginate(s, page, limit).items| <= limit
  {
    if page >= 1 && limit >= 1 {
      PageIsWindow(s, page, limit);
    }
  }

  /** The total page count is the least number of `limit`-sized pages that hold the list. */
  lemma TotalPagesIsLeast<T>(s: seq<T>, limit: int)
    requires limit >= 1
    ensures Paginate(s, 1, limit).totalPages >= 0
    ensures Paginate(s, 1, limit).totalPages * limit >= |s|
    ensures (Paginate(s, 1, limit).totalPages - 1) * limit < |s| || |s| == 0
  {
    var t := Paginate(s, 1, limit).totalPages;
    if t < 0 {
      MulMono(t, -1, limit);
    }
  }

  /** Pages 1 through k, concatenated. */
  function Pages<T>(s: seq<T>, limit: int, k: nat): seq<T>
    requires limit >= 1
  {
    if k == 0 then [] else Pages(s, limit, k - 1) + Paginate(s, k, limit).items
  }

  lemma {:induction false} PagesArePrefix<T>(s: seq<T>, limit: int, k: nat)
    requires limit >= 1
    ensures Pages(s, limit, k) == s[..Seqs.Min(|s|, k * limit)]
  {
    if k > 0 {
      var lo, hi := (k - 1) * limit, k * limit;
      assert hi == lo + limit;
      MulMono(0, k - 1, limit);
      PagesArePrefix(s, limit, k - 1);
      PageIsWindow(s, k, limit);
      if lo <= |s| {
        assert s[..lo] + s[lo .. Seqs.Min(|s|, hi)] == s[..Seqs.Min(|s|, hi)];
      }
    }
  }

  /** Pages 1 through the page count, concatenated, give back the whole list. */
  lemma PagesCoverList<T>(s: seq<T>, limit: int)
    requires limit >= 1
    ensures Pages(s, limit, Paginate(s, 1, limit).totalPages) == s
  {
    TotalPagesIsLeast(s, limit);
    PagesArePrefix(s, limit, Paginate(s, 1, limit).totalPages);
  }
}

=== FILE: player_service.dfy ===
/** The player-list service (backend/app.py) without its web plumbing: the
    cache-building join and the rescore, filter, sort and page pipeline. */
module PlayerService {
  import opened Values
  import opened Players
  import Seqs
  import Text
  import KeyedSort
  import ServerScoring
  import Paging

  const IdField := "PlayerID"

  /** The multiplier applied to last season's rescored points. */
  const StatsScale: real := 2.44

  // ---------------------------------------------------------------------------
  // Joining statistics and projections to the roster feed

  /** `entry['PlayerID'] == key`, for an entry that has the field. */
  predicate IdIs(entry: Record, key: Scalar) {
    IdField in entry && entry[IdField] == key
  }

  /** Reference: the last entry carrying `key`, scanning from the end. */
  function LastWithId(entries: seq<Record>, key: Scalar): (r: Option<Record>)
    ensures r.Some? ==> exists i ::
      (0 <= i < |entries| && entries[i] == r.value && IdIs(entries[i], key) &&
       forall j :: i < j < |entries| ==> !IdIs(entries[j], key))
    ensures r.None? ==> forall i :: 0 <= i < |entries| ==> !IdIs(entries[i], key)
    decreases |entries|
  {
    if |entries| == 0 then None
    else if IdIs(entries[|entries| - 1], key) then Some(entries[|entries| - 1])
    else LastWithId(entries[..|entries| - 1], key)
  }

  /** `{s['PlayerID']: s for s in entries}`: later entries overwrite earlier
      ones; an entry without the field raises KeyError (`None`). */
  function IndexById(entries: seq<Record>): (r: Option<map<Scalar, Record>>)
    ensures r.Some? <==> forall i :: 0 <= i < |entries| ==> IdField in entries[i]
    ensures r.Some? ==> forall key :: key in r.value <==> LastWithId(entries, key).Some?
    ensures r.Some? ==> forall key :: key in r.value ==> r.value[key] == LastWithId(entries, key).value
    decreases |entries|
  {
    if |entries| == 0 then Some(map[])
    else
      var init, last := entries[..|entries| - 1], entries[|entries| - 1];
      match IndexById(init)
      case None => None
      case Some(m) =>
        if IdField in last then Some(m[last[IdField] := last]) else None
  }

  /** `index.get(player['PlayerID'], {})`. */
  function Lookup(index: map<Scalar, Record>, id: int): Record {
    var key := Num(id as real);
    if key in index then index[key] else map[]
  }

  /** The entry the join attaches for `id`: the last one carrying that id, or `{}`. */
  function MatchedEntry(entries: seq<Record>, id: int): Record {
    match LastWithId(entries, Num(id as real))
    case Some(e) => e
    case None => map[]
  }

  function Attach(p: RawPlayer, stats: Record, projections: Record): Player {
    Player(p.id, p.name, p.position, p.team, p.adp, stats, projections)
  }

  /** The cache built by `get_player_data`: every player, in feed order, with
      its statistics and projections attached. */
  function Join(players: seq<RawPlayer>, stats: seq<Record>, projections: seq<Record>)
    : (r: Option<seq<Player>>)
    ensures r.Some? <==>
      (forall i :: 0 <= i < |stats| ==> IdField in stats[i]) &&
      (forall i :: 0 <= i < |projections| ==> IdField in projections[i])
    ensures r.Some? ==> |r.value| == |players|
    ensures r.Some? ==> forall i :: 0 <= i < |players| ==>
      r.value[i] == Attach(players[i], MatchedEntry(stats, players[i].id),
                           MatchedEntry(projections, players[i].id))
  {
    match (IndexById(stats), IndexById(projections))
    case (Some(statsIndex), Some(projectionsIndex)) =>
      Some(seq(|players|, i requires 0 <= i < |players| =>
        Attach(players[i], Lookup(statsIndex, players[i].id), Lookup(projectionsIndex, players[i].id))))
    case _ => None
  }

  /** When several entries share an id, the join attaches the last of them. */
  lemma JoinTakesLastDuplicate(players: seq<RawPlayer>, stats: seq<Record>, projections: seq<Record>, i: int, j: int)
    requires Join(players, stats, projections).Some?
    requires 0 <= i < |players| && 0 <= j < |stats| && IdIs(stats[j], Num(players[i].id as real))
    requires forall k :: j < k < |stats| ==> !IdIs(stats[k], Num(players[i].id as real))
    ensures Join(players, stats, projections).value[i].stats == stats[j]
  {
    var key := Num(players[i].id as real);
    var e := LastWithId(stats, key);
    var m :| 0 <= m < |stats| && stats[m] == e.value && IdIs(stats[m], key) &&
      (forall k :: m < k < |stats| ==> !IdIs(stats[k], key));
    assert m == j;
  }

  // ---------------------------------------------------------------------------
  // Rescoring

  /** One player with both point fields recomputed for the requested format. */
  function Rescore(p: Player, format: string): Player {
    p.(stats := p.stats[PointsField := Num(ServerScoring.FantasyPoints(Some(p.stats), format) * StatsScale)],
       projections := p.projections[PointsField := Num(ServerScoring.FantasyPoints(Some(p.projections), format))])
  }

  /** `b` is `a` with at most the two point fields changed. */
  predicate OnlyPointsDiffer(a: Player, b: Player) {
    && a.id == b.id && a.name == b.name && a.position == b.position
    && a.team == b.team && a.adp == b.adp
    && b.stats.Keys == a.stats.Keys + {PointsField}
    && b.projections.Keys == a.projections.Keys + {PointsField}
    && (forall k :: k in a.stats && k != PointsField ==> b.stats[k] == a.stats[k])
    && (forall k :: k in a.projections && k != PointsField ==> b.projections[k] == a.projections[k])
  }

  /** Every player, in order, with only the two point fields replaced: last
      season's by its rescored value times 2.44, the projection by its rescored value. */
  function Recalculate(players: seq<Player>, format: string): (r: seq<Player>)
    ensures |r| == |players|
    ensures forall i :: 0 <= i < |r| ==> OnlyPointsDiffer(players[i], r[i])
    ensures forall i :: 0 <= i < |r| ==>
      PointsField in r[i].stats &&
      r[i].stats[PointsField] == Num(ServerScoring.FantasyPoints(Some(players[i].stats), format) * StatsScale)
    ensures forall i :: 0 <= i < |r| ==>
      PointsField in r[i].projections &&
      r[i].projections[PointsField] == Num(ServerScoring.FantasyPoints(Some(players[i].projections), format))
  {
    seq(|players|, i requires 0 <= i < |players| => Rescore(players[i], format))
  }

  // ---------------------------------------------------------------------------
  // Filtering

  datatype Query = Query(
    searchTerm: string,
    positionFilter: string,
    teamFilter: string,
    scoringFormat: string,
    sortKey: string,
    sortDirection: string,
    page: int,
    limit: int)


  const FlexPositions := ["RB", "WR", "TE"]
  const SuperflexPositions := ["QB", "RB", "WR", "TE"]
  const ExcludedPositions := ["P", "G", "C", "OL"]

  predicate NameMatches(term: string, p: Player) {
    Text.Contains(Text.Lower(p.name), Text.Lower(term))
  }

  predicate PositionMatches(filter: string, p: Player) {
    if filter == "FLEX" then p.position in FlexPositions
    else if filter == "SUPERFLEX" then p.position in SuperflexPositions
    else p.position == filter
  }

  predicate TeamMatches(filter: string, p: Player) {
    p.team == filter
  }

  predicate Listable(p: Player) {
    p.position !in ExcludedPositions
  }

  function NameTest(term: string): Player -> bool { p => NameMatches(term, p) }
  function PositionTest(filter: string): Player -> bool { p => PositionMatches(filter, p) }
  function TeamTest(filter: string): Player -> bool { p => TeamMatches(filter, p) }
  function ListableTest(): Player -> bool { p => Listable(p) }

  /** The four filters in the order the service applies them; an empty search,
      position or team parameter skips its filter. */
  function ApplyFilters(s: seq<Player>, q: Query): (r: seq<Player>)
    ensures Seqs.Sub(r, s)
  {
    var s1 := if q.searchTerm != "" then Seqs.Filter(s, NameTest(q.searchTerm)) else s;
    var s2 := if q.positionFilter != "" then Seqs.Filter(s1, PositionTest(q.positionFilter)) else s1;
    var s3 := if q.teamFilter != "" then Seqs.Filter(s2, TeamTest(q.teamFilter)) else s2;
    FiltersCompose(s, q);
    Seqs.Filter(s3, ListableTest())
  }

  /** Reference: a player is listed when it passes every filter the query sets. */
  predicate Keeps(q: Query, p: Player) {
    && (q.searchTerm == "" || NameMatches(q.searchTerm, p))
    && (q.positionFilter == "" || PositionMatches(q.positionFilter, p))
    && (q.teamFilter == "" || TeamMatches(q.teamFilter, p))
    && Listable(p)
  }

  function KeepTest(q: Query): Player -> bool { p => Keeps(q, p) }

  /** The four stages equal one filter by `Keeps`. */
  lemma FiltersCompose(s: seq<Player>, q: Query)
    ensures
      var s1 := if q.searchTerm != "" then Seqs.Filter(s, NameTest(q.searchTerm)) else s;
      var s2 := if q.positionFilter != "" then Seqs.Filter(s1, PositionTest(q.positionFilter)) else s1;
      var s3 := if q.teamFilter != "" then Seqs.Filter(s2, TeamTest(q.teamFilter)) else s2;
      Seqs.Filter(s3, ListableTest()) == Seqs.Filter(s, KeepTest(q))
  {
    var all: Player -> bool := p => true;
    var t1: Player -> bool := p => q.searchTerm == "" || NameMatches(q.searchTerm, p);
    var t2: Player -> bool := p => t1(p) && (q.positionFilter == "" || PositionMatches(q.positionFilter, p));
    var t3: Player -> bool := p => t2(p) && (q.teamFilter == "" || TeamMatches(q.teamFilter, p));
    Seqs.FilterKeepsAll(s, all);
    var s1 := if q.searchTerm != "" then Seqs.Filter(s, NameTest(q.searchTerm)) else s;
    if q.searchTerm != "" {
      Seqs.FilterFuse(s, all, NameTest(q.searchTerm), t1);
    } else {
      Seqs.FilterFuse(s, all, all, t1);
    }
    assert s1 == Seqs.Filter(s, t1);
    var s2 := if q.positionFilter != "" then Seqs.Filter(s1, PositionTest(q.positionFilter)) else s1;
    if q.positionFilter != "" {
      Seqs.FilterFuse(s, t1, PositionTest(q.positionFilter), t2);
    } else {
      Seqs.FilterKeepsAll(s1, all);
      Seqs.FilterFuse(s, t1, all, t2);
    }
    assert s2 == Seqs.Filter(s, t2);
    var s3 := if q.teamFilter != "" then Seqs.Filter(s2, TeamTest(q.teamFilter)) else s2;
    if q.teamFilter != "" {
      Seqs.FilterFuse(s, t2, TeamTest(q.teamFilter), t3);
    } else {
      Seqs.FilterKeepsAll(s2, all);
      Seqs.FilterFuse(s, t2, all, t3);
    }
    assert s3 == Seqs.Filter(s, t3);
    Seqs.FilterFuse(s, t3, ListableTest(), KeepTest(q));
  }

  /** The filtered list keeps exactly the players that satisfy `Keeps`, each as
      often as in the input and in input order. */
  lemma FilteredAreExactlyKept(s: seq<Player>, q: Query)
    ensures forall p :: multiset(ApplyFilters(s, q))[p] == if Keeps(q, p) then multiset(s)[p] else 0
    ensures Seqs.Sub(ApplyFilters(s, q), s)
  {
    FiltersCompose(s, q);
    Seqs.FilterCounts(s, KeepTest(q));
  }

  /** An empty search, position and team parameter still drops P, G, C and OL. */
  lemma NoFiltersDropsOnlyExcluded(s: seq<Player>, q: Query)
    requires q.searchTerm == "" && q.positionFilter == "" && q.teamFilter == ""
    ensures ApplyFilters(s, q) == Seqs.Filter(s, ListableTest())
  {
  }

  /** FLEX keeps running backs, wide receivers and tight ends; SUPERFLEX adds
      quarterbacks; any other value keeps exact matches. */
  lemma PositionFilterMeaning(filter: string, p: Player)
    ensures filter == "FLEX" ==> (PositionMatches(filter, p) <==> p.position == "RB" || p.position == "WR" || p.position == "TE")
    ensures filter == "SUPERFLEX" ==> (PositionMatches(filter, p) <==>
      p.position == "QB" || p.position == "RB" || p.position == "WR" || p.position == "TE")
    ensures filter != "FLEX" && filter != "SUPERFLEX" ==> (PositionMatches(filter, p) <==> p.position == filter)
  {
  }

  // ---------------------------------------------------------------------------
  // Sorting

  /** `sort_logic`: ADP (999 when missing or zero), rescored points or
      projection (0 when missing or zero), or the named text field ('' when
      missing or empty). */
  function SortValue(sortKey: string, p: Player): KeyedSort.SortKey {
    if sortKey == "adp" then KeyedSort.NumKey(if Truthy(p.adp) then p.adp.n else 999.0)
    else if sortKey == "stats" then KeyedSort.NumKey(FieldOr(p.stats, PointsField, 0.0))
    else if sortKey == "projections" then KeyedSort.NumKey(FieldOr(p.projections, PointsField, 0.0))
    else KeyedSort.TextKey(NamedField(p, sortKey))
  }

  function SortLogic(sortKey: string): Player -> KeyedSort.SortKey {
    p => SortValue(sortKey, p)
  }

  /** `p.get(key) or ''` for the text attributes the model carries. */
  function NamedField(p: Player, key: string): string {
    if key == "Name" then p.name
    else if key == "Position" then p.position
    else if key == "Team" then p.team
    else ""
  }

  /** `s.sort(key=sort_logic, reverse=(direction == 'descending'))`. */
  function SortPlayers(s: seq<Player>, sortKey: string, direction: string): (r: seq<Player>)
    ensures multiset(r) == multiset(s)
    ensures forall i, j :: 0 <= i < j < |r| ==>
      KeyedSort.InOrder(SortLogic(sortKey)(r[i]), SortLogic(sortKey)(r[j]), direction == "descending")
  {
    KeyedSort.Sort(s, SortLogic(sortKey), direction == "descending")
  }

  /** Players with equal sort keys keep their relative order, in both directions. */
  lemma SortPlayersIsStable(s: seq<Player>, sortKey: string, direction: string, k: KeyedSort.SortKey)
    ensures KeyedSort.WithKey(SortPlayers(s, sortKey, direction), SortLogic(sortKey), k)
         == KeyedSort.WithKey(s, SortLogic(sortKey), k)
  {
    KeyedSort.SortIsStable(s, SortLogic(sortKey), direction == "descending", k);
  }

  // ---------------------------------------------------------------------------
  // The whole request

  /** The body of `players()` for one query against the cached list. */
  function ListPlayers(cache: seq<Player>, q: Query): (r: Paging.PageResult<Player>)
    ensures r.DivisionByZero? <==> q.limit == 0
    ensures r.Page? ==> forall p :: p in r.items ==>
      Keeps(q, p) && p in Recalculate(cache, q.scoringFormat)
    ensures r.Page? && q.page >= 1 && q.limit >= 1 ==> |r.items| <= q.limit
    ensures r.Page? ==> forall i, j :: 0 <= i < j < |r.items| ==>
      KeyedSort.InOrder(SortValue(q.sortKey, r.items[i]), SortValue(q.sortKey, r.items[j]), q.sortDirection == "descending")
    ensures r.Page? ==>
      r.totalPages == Paging.CeilDiv(|Seqs.Filter(Recalculate(cache, q.scoringFormat), KeepTest(q))|, q.limit)
  {
    var rescored := Recalculate(cache, q.scoringFormat);
    var kept := ApplyFilters(rescored, q);
    var ordered := SortPlayers(kept, q.sortKey, q.sortDirection);
    ListedAreKept(rescored, kept, ordered, q);
    FiltersCompose(rescored, q);
    assert |ordered| == |multiset(ordered)| == |multiset(kept)| == |kept|;
    ListedAreOrdered(ordered, q);
    Paging.PageSizeBound(ordered, q.page, q.limit);
    Paging.Paginate(ordered, q.page, q.limit)
  }

  lemma ListedAreKept(rescored: seq<Player>, kept: seq<Player>, ordered: seq<Player>, q: Query)
    requires kept == ApplyFilters(rescored, q)
    requires multiset(ordered) == multiset(kept)
    ensures q.limit != 0 ==>
      forall p :: p in Paging.Paginate(ordered, q.page, q.limit).items ==> Keeps(q, p) && p in rescored
  {
    FilteredAreExactlyKept(rescored, q);
    forall p | q.limit != 0 && p in Paging.Paginate(ordered, q.page, q.limit).items
      ensures Keeps(q, p) && p in rescored
    {
      Paging.PageItemsAreListed(ordered, q.page, q.limit, p);
      assert p in multiset(kept);
    }
  }

  /** The page of a sorted list is itself sorted. */
  lemma ListedAreOrdered(ordered: seq<Player>, q: Query)
    requires forall i, j :: 0 <= i < j < |ordered| ==>
      KeyedSort.InOrder(SortLogic(q.sortKey)(ordered[i]), SortLogic(q.sortKey)(ordered[j]), q.sortDirection == "descending")
    ensures q.limit != 0 ==>
      var items := Paging.Paginate(ordered, q.page, q.limit).items;
      forall i, j :: 0 <= i < j < |items| ==>
        KeyedSort.InOrder(SortValue(q.sortKey, items[i]), SortValue(q.sortKey, items[j]), q.sortDirection == "descending")
  {
    if q.limit != 0 {
      Paging.PageIsRun(ordered, q.page, q.limit);
      var items := Paging.Paginate(ordered, q.page, q.limit).items;
      var a := Paging.PageStart(ordered, q.page, q.limit);
      forall i, j | 0 <= i < j < |items|
        ensures KeyedSort.InOrder(SortValue(q.sortKey, items[i]), SortValue(q.sortKey, items[j]), q.sortDirection == "descending")
      {
        assert items[i] == ordered[a + i] && items[j] == ordered[a + j];
        assert SortLogic(q.sortKey)(ordered[a + i]) == SortValue(q.sortKey, items[i]);
        assert SortLogic(q.sortKey)(ordered[a + j]) == SortValue(q.sortKey, items[j]);
      }
    }
  }

  // ---------------------------------------------------------------------------
  // Paging through a whole result

  /** The filtered, sorted list a query pages through; the page number plays no part. */
  function Ordered(cache: seq<Player>, q: Query): seq<Player> {
    SortPlayers(ApplyFilters(Recalculate(cache, q.scoringFormat), q), q.sortKey, q.sortDirection)
  }

  lemma Unfold(cache: seq<Player>, q: Query)
    ensures ListPlayers(cache, q) == Paging.Paginate(Ordered(cache, q), q.page, q.limit)
  {
  }

  lemma OrderedIgnoresPage(cache: seq<Player>, q: Query, k: int)
    ensures Ordered(cache, q.(page := k)) == Ordered(cache, q)
  {
  }

  /** Requesting pages 1 through k of the same query and concatenating them. */
  function Listed(cache: seq<Player>, q: Query, k: int): seq<Player>
    requires q.limit != 0
    decreases k
  {
    if k <= 0 then []
    else
      var r := ListPlayers(cache, q.(page := k));
      assert r.Page?;
      Listed(cache, q, k - 1) + r.items
  }

  lemma {:induction false} ListedIsPages(cache: seq<Player>, q: Query, k: nat)
    requires q.limit >= 1
    ensures Listed(cache, q, k) == Paging.Pages(Ordered(cache, q), q.limit, k)
    decreases k
  {
    if k > 0 {
      ListedIsPages(cache, q, k - 1);
      Unfold(cache, q.(page := k));
      OrderedIgnoresPage(cache, q, k);
    }
  }

  /** Paging through pages 1 to the reported page count lists every kept
      player exactly as often as the cache holds it, and in sort order. */
  lemma PagesListEveryKeptPlayer(cache: seq<Player>, q: Query)
    requires q.limit >= 1
    ensures var all := Listed(cache, q, ListPlayers(cache, q).totalPages);
      && multiset(all) == multiset(Seqs.Filter(Recalculate(cache, q.scoringFormat), KeepTest(q)))
      && forall i, j :: 0 <= i < j < |all| ==>
           KeyedSort.InOrder(SortValue(q.sortKey, all[i]), SortValue(q.sortKey, all[j]), q.sortDirection == "descending")
  {
    var ordered := Ordered(cache, q);
    var rescored := Recalculate(cache, q.scoringFormat);
    Unfold(cache, q);
    var total := ListPlayers(cache, q).totalPages;
    assert total == Paging.Paginate(ordered, 1, q.limit).totalPages;
    Paging.TotalPagesIsLeast(ordered, q.limit);
    ListedIsPages(cache, q, total);
    Paging.PagesCoverList(ordered, q.limit);
    var all := Listed(cache, q, total);
    assert all == ordered;
    FiltersCompose(rescored, q);
    forall i, j | 0 <= i < j < |all|
      ensures KeyedSort.InOrder(SortValue(q.sortKey, all[i]), SortValue(q.sortKey, all[j]), q.sortDirection == "descending")
    {
      assert SortLogic(q.sortKey)(all[i]) == SortValue(q.sortKey, all[i]);
      assert SortLogic(q.sortKey)(all[j]) == SortValue(q.sortKey, all[j]);
    }
  }
}

=== FILE: players.dfy ===
/** The player records exchanged between the list service and the client. */
module Players {
  import opened Values

  /** A player as the roster feed describes one, before statistics are attached. */
  datatype RawPlayer = RawPlayer(id: int, name: string, position: string, team: string, adp: Scalar)

  /** A player with the season statistics and projections attached; the client
      receives these records unchanged. */
  datatype Player = Player(
    id: int,
    name: string,
    position: string,
    team: string,
    adp: Scalar,
    stats: Record,
    projections: Record)
}

=== FILE: roster.dfy ===
/** The roster panel's greedy assignment of drafted players to starting slots
    and the bench (frontend/src/MyTeam.js). */
module Roster {
  import opened Players
  import Seqs

  /** The seven groups of the roster, in display order. */
  datatype Slot = QB | RB | WR | TE | K | DEF | BENCH

  /** The starting slot a position string names; every other position,
      including an unknown one, has only the bench. */
  function SlotOf(position: string): Slot {
    if position == "QB" then QB
    else if position == "RB" then RB
    else if position == "WR" then WR
    else if position == "TE" then TE
    else if position == "K" then K
    else if position == "DEF" then DEF
    else BENCH
  }

  /** Starting capacity: one quarterback, tight end, kicker and defence, two
      running backs and wide receivers. */
  function Capacity(s: Slot): nat
    requires s != BENCH
  {
    if s == RB || s == WR then 2 else 1
  }

  datatype Roster = Roster(
    qb: seq<Player>, rb: seq<Player>, wr: seq<Player>, te: seq<Player>,
    k: seq<Player>, def: seq<Player>, bench: seq<Player>)
  {
    function Bucket(s: Slot): seq<Player> {
      match s
      case QB => qb
      case RB => rb
      case WR => wr
      case TE => te
      case K => k
      case DEF => def
      case BENCH => bench
    }

    /** Appends `p` to one group and leaves the others alone. */
    function Push(s: Slot, p: Player): (r: Roster)
      ensures r.Bucket(s) == Bucket(s) + [p]
      ensures forall t :: t != s ==> r.Bucket(t) == Bucket(t)
    {
      match s
      case QB => this.(qb := qb + [p])
      case RB => this.(rb := rb + [p])
      case WR => this.(wr := wr + [p])
      case TE => this.(te := te + [p])
      case K => this.(k := k + [p])
      case DEF => this.(def := def + [p])
      case BENCH => this.(bench := bench + [p])
    }

    /** Everything the roster holds, counted with repetition. */
    function Contents(): multiset<Player> {
      multiset(qb) + multiset(rb) + multiset(wr) + multiset(te)
        + multiset(k) + multiset(def) + multiset(bench)
    }
  }

  lemma PushAddsOne(r: Roster, s: Slot, p: Player)
    ensures r.Push(s, p).Contents() == r.Contents() + multiset{p}
  {
    var r' := r.Push(s, p);
    forall x
      ensures r'.Contents()[x] == (r.Contents() + multiset{p})[x]
    {
      assert multiset(r.Bucket(s) + [p])[x] == multiset(r.Bucket(s))[x] + multiset{p}[x];
    }
  }

  /** The roster object before the first player is placed: all seven groups present and empty. */
  const Empty := Roster([], [], [], [], [], [], [])

  /** One turn of the loop: a starter if the position's slot has room, otherwise the bench. */
  function Place(r: Roster, p: Player): Roster {
    var s := SlotOf(p.position);
    if s != BENCH && |r.Bucket(s)| < Capacity(s) then r.Push(s, p) else r.Push(BENCH, p)
  }

  /** The roster built from the team in draft order. */
  function Assign(team: seq<Player>): (r: Roster)
    ensures forall s :: s != BENCH ==> |r.Bucket(s)| <= Capacity(s)
    ensures forall s :: Seqs.Sub(r.Bucket(s), team)
    decreases |team|
  {
    if |team| == 0 then Empty
    else
      var init, last := team[..|team| - 1], team[|team| - 1];
      assert team == init + [last];
      var prev := Assign(init);
      PlaceKeepsOrder(prev, init, last);
      Place(prev, last)
  }

  lemma PlaceKeepsOrder(prev: Roster, init: seq<Player>, p: Player)
    requires forall s :: Seqs.Sub(prev.Bucket(s), init)
    ensures forall s :: Seqs.Sub(Place(prev, p).Bucket(s), init + [p])
  {
    forall s
      ensures Seqs.Sub(Place(prev, p).Bucket(s), init + [p])
    {
      var b := prev.Bucket(s);
      assert (init + [p])[..|init|] == init;
      assert (b + [p])[..|b|] == b;
    }
  }

  /** Every drafted player lands in exactly one group: the groups together
      hold the team, each player as often as drafted. */
  lemma {:induction false} AssignKeepsEveryone(team: seq<Player>)
    ensures Assign(team).Contents() == multiset(team)
    decreases |team|
  {
    if |team| > 0 {
      var init, last := team[..|team| - 1], team[|team| - 1];
      assert team == init + [last];
      AssignKeepsEveryone(init);
      var prev := Assign(init);
      assert Assign(team) == Place(prev, last);
      var s := SlotOf(last.position);
      PushAddsOne(prev, if s != BENCH && |prev.Bucket(s)| < Capacity(s) then s else BENCH, last);
    }
  }

  /** Hence the group sizes add up to the team size. */
  lemma SizesAddUp(team: seq<Player>)
    ensures var r := Assign(team);
      |r.qb| + |r.rb| + |r.wr| + |r.te| + |r.k| + |r.def| + |r.bench| == |team|
  {
    var r := Assign(team);
    AssignKeepsEveryone(team);
    assert |r.Contents()| == |multiset(team)|;
  }

  /** The drafted players whose position has slot `s`, in draft order. */
  function OfSlot(team: seq<Player>, s: Slot): seq<Player> {
    Seqs.Filter(team, HasSlot(s))
  }

  function HasSlot(s: Slot): Player -> bool {
    (p: Player) => SlotOf(p.position) == s
  }

  /** Reference for a starting group: the first `Capacity(s)` players of that
      position in draft order. */
  function Starters(team: seq<Player>, s: Slot): seq<Player>
    requires s != BENCH
  {
    var all := OfSlot(team, s);
    all[..Seqs.Min(Capacity(s), |all|)]
  }

  /** A player is benched when the position has no starting slot, or when the
      slot's capacity was already used up by players drafted before. */
  predicate Overflows(earlier: seq<Player>, p: Player) {
    var s := SlotOf(p.position);
    s == BENCH || |OfSlot(earlier, s)| >= Capacity(s)
  }

  /** Reference for the bench: the overflowing players, in draft order. */
  function Benched(team: seq<Player>): seq<Player>
    decreases |team|
  {
    if |team| == 0 then []
    else
      var init, last := team[..|team| - 1], team[|team| - 1];
      Benched(init) + (if Overflows(init, last) then [last] else [])
  }

  /** The greedy loop builds exactly the reference groups: each starting group
      is the first min(capacity, count) players of its position, and the bench
      holds the rest together with every unknown position, all in draft order. */
  lemma {:induction false} AssignMatchesReference(team: seq<Player>)
    ensures forall s :: s != BENCH ==> Assign(team).Bucket(s) == Starters(team, s)
    ensures Assign(team).bench == Benched(team)
    decreases |team|
  {
    if |team| > 0 {
      var init, last := team[..|team| - 1], team[|team| - 1];
      assert team == init + [last];
      AssignMatchesReference(init);
      forall s | s != BENCH
        ensures Assign(team).Bucket(s) == Starters(team, s)
      {
        StartersStep(init, last, s);
      }
      BenchStep(init, last);
    }
  }

  lemma BenchStep(init: seq<Player>, last: Player)
    requires forall s :: s != BENCH ==> Assign(init).Bucket(s) == Starters(init, s)
    requires Assign(init).bench == Benched(init)
    ensures Assign(init + [last]).bench == Benched(init + [last])
  {
    var team := init + [last];
    assert team[..|team| - 1] == init && team[|team| - 1] == last;
    assert Assign(team) == Place(Assign(init), last);
    assert Benched(team) == Benched(init) + (if Overflows(init, last) then [last] else []);
    var s := SlotOf(last.position);
    if s != BENCH {
      assert |Assign(init).Bucket(s)| == Seqs.Min(Capacity(s), |OfSlot(init, s)|);
      if |OfSlot(init, s)| < Capacity(s) {
        assert Place(Assign(init), last) == Assign(init).Push(s, last);
      } else {
        assert Place(Assign(init), last) == Assign(init).Push(BENCH, last);
      }
    }
  }

  lemma StartersStep(init: seq<Player>, last: Player, s: Slot)
    requires s != BENCH && Assign(init).Bucket(s) == Starters(init, s)
    ensures Assign(init + [last]).Bucket(s) == Starters(init + [last], s)
  {
    var team := init + [last];
    assert team[..|team| - 1] == init && team[|team| - 1] == last;
    var prev, before := Assign(init), OfSlot(init, s);
    assert Assign(team) == Place(prev, last);
    Seqs.FilterSnoc(init, last, HasSlot(s));
    if SlotOf(last.position) != s {
      assert OfSlot(team, s) == before;
      PlaceElsewhere(prev, last, s);
    } else {
      assert OfSlot(team, s) == before + [last];
      PlaceInSlot(prev, last, before);
    }
  }

  /** Placing a player of another position leaves group `s` alone. */
  lemma PlaceElsewhere(prev: Roster, last: Player, s: Slot)
    requires s != BENCH && SlotOf(last.position) != s
    ensures Place(prev, last).Bucket(s) == prev.Bucket(s)
  {
  }

  /** Placing a player of the group's own position extends the prefix of
      earlier players of that position by one, up to the capacity. */
  lemma PlaceInSlot(prev: Roster, last: Player, before: seq<Player>)
    requires SlotOf(last.position) != BENCH
    requires prev.Bucket(SlotOf(last.position)) == before[..Seqs.Min(Capacity(SlotOf(last.position)), |before|)]
    ensures var s := SlotOf(last.position);
      Place(prev, last).Bucket(s) == (before + [last])[..Seqs.Min(Capacity(s), |before| + 1)]
  {
    var s, cap := SlotOf(last.position), Capacity(SlotOf(last.position));
    if |before| < cap {
      assert before[..|before|] == before;
      assert Place(prev, last) == prev.Push(s, last);
      assert (before + [last])[..|before| + 1] == before + [last];
    } else {
      assert Place(prev, last) == prev.Push(BENCH, last);
      assert (before + [last])[..cap] == before[..cap];
    }
  }

  /** A player whose position is not one of the six starting positions is always on the bench. */
  lemma UnknownPositionIsBenched(team: seq<Player>, i: int)
    requires 0 <= i < |team| && SlotOf(team[i].position) == BENCH
    ensures team[i] in Assign(team).bench
  {
    AssignMatchesReference(team);
    BenchedHasOverflow(team, i);
  }

  lemma {:induction false} BenchedHasOverflow(team: seq<Player>, i: int)
    requires 0 <= i < |team| && Overflows(team[..i], team[i])
    ensures team[i] in Benched(team)
    decreases |team|
  {
    var init := team[..|team| - 1];
    if i < |team| - 1 {
      assert init[..i] == team[..i];
      BenchedHasOverflow(init, i);
    }
  }

  /** Drafting one more player never displaces anyone: every group of the old
      roster is a prefix of the same group afterwards. */
  lemma DraftingNeverDisplaces(team: seq<Player>, p: Player)
    ensures forall s :: Assign(team).Bucket(s) <= Assign(team + [p]).Bucket(s)
  {
    var t := team + [p];
    assert t[..|t| - 1] == team && t[|t| - 1] == p;
    var prev := Assign(team);
    assert Assign(t) == Place(prev, p);
    var s := SlotOf(p.position);
    var target := if s != BENCH && |prev.Bucket(s)| < Capacity(s) then s else BENCH;
    assert Assign(t) == prev.Push(target, p);
  }
}

=== FILE: seqs.dfy ===
/** Order-preserving filtering and the subsequence relation. */
module Seqs {

  /** The smaller of two bounds, used to cut a sequence short. */
  function Min(a: int, b: int): int {
    if a <= b then a else b
  }

  /** `a` can be obtained from `b` by deleting elements, keeping the rest in order. */
  predicate Sub<T(==)>(a: seq<T>, b: seq<T>)
    decreases |b|
  {
    |a| == 0 ||
    (|b| > 0 &&
     ((a[|a| - 1] == b[|b| - 1] && Sub(a[..|a| - 1], b[..|b| - 1])) || Sub(a, b[..|b| - 1])))
  }

  /** A list comprehension `[x for x in s if keep(x)]`. */
  function Filter<T(==,!new)>(s: seq<T>, keep: T -> bool): (r: seq<T>)
    ensures |r| <= |s|
    ensures Sub(r, s)
    decreases |s|
  {
    if |s| == 0 then []
    else
      var init, last := s[..|s| - 1], s[|s| - 1];
      var rest := Filter(init, keep);
      if keep(last) then
        assert (rest + [last])[..|rest|] == rest;
        rest + [last]
      else
        rest
  }

  /** The filter keeps exactly the elements that pass, each as often as it occurs. */
  lemma {:induction false} FilterCounts<T(!new)>(s: seq<T>, keep: T -> bool)
    ensures forall x :: multiset(Filter(s, keep))[x] == if keep(x) then multiset(s)[x] else 0
    decreases |s|
  {
    if |s| > 0 {
      var init, last := s[..|s| - 1], s[|s| - 1];
      assert s == init + [last];
      FilterCounts(init, keep);
    }
  }

  lemma FilterMembers<T(!new)>(s: seq<T>, keep: T -> bool)
    ensures forall x :: x in Filter(s, keep) <==> x in s && keep(x)
  {
    FilterCounts(s, keep);
    forall x
      ensures x in Filter(s, keep) <==> x in s && keep(x)
    {
      assert x in Filter(s, keep) <==> x in multiset(Filter(s, keep));
      assert x in s <==> x in multiset(s);
    }
  }

  lemma FilterSnoc<T(!new)>(s: seq<T>, x: T, keep: T -> bool)
    ensures Filter(s + [x], keep) == Filter(s, keep) + (if keep(x) then [x] else [])
  {
    assert (s + [x])[..|s|] == s;
  }

  /** Filtering twice is filtering once by the conjunction. */
  lemma {:induction false} FilterFuse<T(!new)>(s: seq<T>, f: T -> bool, g: T -> bool, h: T -> bool)
    requires forall x :: h(x) == (f(x) && g(x))
    ensures Filter(Filter(s, f), g) == Filter(s, h)
    decreases |s|
  {
    if |s| > 0 {
      var init, last := s[..|s| - 1], s[|s| - 1];
      assert s == init + [last];
      FilterFuse(init, f, g, h);
      FilterSnoc(init, last, f);
      FilterSnoc(init, last, h);
      if f(last) {
        FilterSnoc(Filter(init, f), last, g);
      }
    }
  }

  /** A filter whose test holds of every element keeps the sequence unchanged. */
  lemma {:induction false} FilterKeepsAll<T(!new)>(s: seq<T>, keep: T -> bool)
    requires forall i :: 0 <= i < |s| ==> keep(s[i])
    ensures Filter(s, keep) == s
    decreases |s|
  {
    if |s| > 0 {
      var init, last := s[..|s| - 1], s[|s| - 1];
      assert s == init + [last];
      FilterKeepsAll(init, keep);
    }
  }
}

=== FILE: server_scoring.dfy ===
/** The list service's fantasy-point calculation (`calculate_fantasy_points` in
    backend/scoring.py). */
module ServerScoring {
  import opened Values
  import ClientScoring

  /** `player_stats.get('FantasyPoints', 0) or 0`. */
  function Standard(d: Record): real {
    FieldOr(d, PointsField, 0.0)
  }

  /** `player_stats.get('FantasyPointsPPR', standard_points) or standard_points`. */
  function Ppr(d: Record): real {
    FieldOr(d, PprField, Standard(d))
  }

  /** Points for one statistics dictionary; `None` is Python's `None`. Unlike
      the browser version, an empty dictionary is falsy and returns 0 at once. */
  function FantasyPoints(stats: Option<Record>, format: string): (r: real)
    ensures stats.None? || stats.value == map[] ==> r == 0.0
    ensures stats.Some? ==>
      var d := stats.value;
      var standard := if PointsField in d && Truthy(d[PointsField]) then d[PointsField].n else 0.0;
      var ppr := if PprField in d && Truthy(d[PprField]) then d[PprField].n else standard;
      && (format == "std" ==> r == standard)
      && (format == "half_ppr" ==> r == (standard + ppr) / 2.0)
      && (format != "std" && format != "half_ppr" ==> r == ppr)
  {
    if stats.None? || stats.value == map[] then 0.0
    else
      var standardPoints := Standard(stats.value);
      var pprPoints := Ppr(stats.value);
      if format == "std" then standardPoints
      else if format == "ppr" then pprPoints
      else if format == "half_ppr" then (standardPoints + pprPoints) / 2.0
      else pprPoints
  }

  /** The two implementations agree on every input and every format: the early
      return for an empty dictionary gives what the browser computes from an
      object with no fields. */
  lemma AgreesWithClient(stats: Option<Record>, format: string)
    ensures FantasyPoints(stats, format) == ClientScoring.FantasyPoints(stats, format)
  {
  }
}

=== FILE: text.dfy ===
/** The string operations the player list relies on: lower-casing, substring
    search, code-point ordering, and decimal rendering of a status code. */
module Text {

  /** Lower-cases one ASCII letter and leaves every other character alone. */
  function LowerChar(c: char): char {
    if 'A' <= c <= 'Z' then (c as int + 32) as char else c
  }

  /** `s.lower()`, restricted to ASCII letters. */
  function Lower(s: string): (r: string)
    ensures |r| == |s|
    ensures forall i :: 0 <= i < |s| ==> r[i] == LowerChar(s[i])
  {
    if |s| == 0 then "" else [LowerChar(s[0])] + Lower(s[1..])
  }

  /** `needle` occurs in `hay` starting at index `i`. */
  predicate OccursAt(hay: string, needle: string, i: int) {
    0 <= i && i + |needle| <= |hay| && hay[i..i + |needle|] == needle
  }

  /** Python's `needle in hay` for strings. */
  predicate Contains(hay: string, needle: string) {
    exists i :: 0 <= i <= |hay| && OccursAt(hay, needle, i)
  }

  /** Python's `a <= b` on strings: code point by code point, a proper prefix first. */
  predicate LexLe(a: string, b: string)
    decreases |a|
  {
    |a| == 0 || (|b| > 0 && (a[0] < b[0] || (a[0] == b[0] && LexLe(a[1..], b[1..]))))
  }

  lemma {:induction false} LexLeReflexive(a: string)
    ensures LexLe(a, a)
    decreases |a|
  {
    if |a| > 0 {
      LexLeReflexive(a[1..]);
    }
  }

  lemma {:induction false} LexLeTotal(a: string, b: string)
    ensures LexLe(a, b) || LexLe(b, a)
    decreases |a|
  {
    if |a| > 0 && |b| > 0 && a[0] == b[0] {
      LexLeTotal(a[1..], b[1..]);
    }
  }

  lemma {:induction false} LexLeTransitive(a: string, b: string, c: string)
    requires LexLe(a, b) && LexLe(b, c)
    ensures LexLe(a, c)
    decreases |a|
  {
    if |a| > 0 && a[0] == b[0] && b[0] == c[0] {
      LexLeTransitive(a[1..], b[1..], c[1..]);
    }
  }

  lemma {:induction false} LexLeAntisymmetric(a: string, b: string)
    requires LexLe(a, b) && LexLe(b, a)
    ensures a == b
    decreases |a|
  {
    if |a| > 0 {
      LexLeAntisymmetric(a[1..], b[1..]);
      assert a == [a[0]] + a[1..] && b == [b[0]] + b[1..];
    }
  }

  function DigitChar(d: nat): char
    requires d < 10
  {
    "0123456789"[d]
  }

  /** The value of a string of decimal digits. */
  function DigitsValue(s: string): nat
    requires forall i :: 0 <= i < |s| ==> '0' <= s[i] <= '9'
  {
    if |s| == 0 then 0 else 10 * DigitsValue(s[..|s| - 1]) + (s[|s| - 1] as int - '0' as int)
  }

  /** A number rendered in decimal, as a JavaScript template literal does for a
      non-negative integer. */
  function DecimalString(n: nat): (r: string)
    ensures |r| >= 1
    ensures forall i :: 0 <= i < |r| ==> '0' <= r[i] <= '9'
    ensures |r| > 1 ==> r[0] != '0'
  {
    if n < 10 then [DigitChar(n)] else DecimalString(n / 10) + [DigitChar(n % 10)]
  }

  /** Reading the rendered digits back yields the number. */
  lemma {:induction false} DecimalStringRoundTrip(n: nat)
    ensures DigitsValue(DecimalString(n)) == n
  {
    if n < 10 {
      assert DigitChar(n) as int - '0' as int == n;
    } else {
      var q, d := n / 10, n % 10;
      DecimalStringRoundTrip(q);
      var r := DecimalString(n);
      assert r == DecimalString(q) + [DigitChar(d)];
      assert r[..|r| - 1] == DecimalString(q);
      assert r[|r| - 1] as int - '0' as int == d;
      assert n == 10 * q + d;
    }
  }
}

=== FILE: values.dfy ===
/** JSON-shaped values carried by the statistics feed, and the truthiness rule
    that JavaScript `||` and Python `or` share for them. */
module Values {

  datatype Option<T> = None | Some(value: T)

  /** One field of a statistics or projections object: JSON null or a number. */
  datatype Scalar = Null | Num(n: real)

  /** A statistics or projections object, keyed by field name. */
  type Record = map<string, Scalar>

  /** The feed's standard-scoring points field, which the list service also
      overwrites with rescored points. */
  const PointsField := "FantasyPoints"

  /** The feed's points-per-reception field. */
  const PprField := "FantasyPointsPPR"

  /** Null and zero are falsy in both languages; every other number is truthy. */
  predicate Truthy(v: Scalar) {
    v.Num? && v.n != 0.0
  }

  /** `d.key || fallback` in JavaScript and `d.get(key) or fallback` in Python:
      the field's number when it is present and truthy, else `fallback`. */
  function FieldOr(d: Record, key: string, fallback: real): real {
    if key in d && Truthy(d[key]) then d[key].n else fallback
  }
}
